=== FILE: README.md ===
# Tracy–Monolog adapter, modelled in Dafny

This project models the core of `nextras/tracy-monolog-adapter`. The adapter lets
Tracy, the PHP error screen, log through a Monolog logger. It has two parts.

- **The logger** (`Logger::log`). It takes a Tracy priority and looks up the
  Monolog level in `PRIORITY_MAP`. An unknown priority becomes `ERROR`. It
  builds the record context: `at` holds the call site, and a throwable goes
  under `exception` with an empty message. It then hands one record to Monolog.
- **The exception processor** (`TracyExceptionProcessor`). For every record
  whose context holds an exception, it makes sure a Tracy HTML report of that
  exception exists in the log directory, and then:
  - adds the report's base name (`tracy_filename`) to the context;
  - adds whether this call created the report (`tracy_created`);
  - replaces an empty message with the exception's cause chain, formatted one
    line per throwable.

  The report file name comes from a 10-character prefix of the md5 of the
  exception text. Before hashing, the digits after every `Resource id #` are
  removed. A file whose name holds the hash, first occurring after the name's
  first character, is reused (a name that begins with the hash is not matched,
  because PHP reads the position 0 that `strpos` returns as false).
  Otherwise a name is built from the current minute and the hash. The file is
  opened in exclusive-create mode, so only one writer renders a given report.

## Modules

- `base.dfy`: `Option` and `Result`.
- `strings.dfy`: the PHP string built-ins the core uses, written over
  `seq<char>`: `strpos`, `strtr`, `trim`, `implode` and integer-to-string.
- `records.dfy`: the data model:
  - Monolog levels;
  - the throwable cause chain;
  - context values and records;
  - `Host`, which holds the functions the core calls but does not define
    (md5, the exception's string conversion, the report renderer, `basename`,
    the error-type and class names) and `DIRECTORY_SEPARATOR`.
- `logger.dfy`: `PRIORITY_MAP` and `log`.
- `resource_ids.dfy`: the regex replacement `(Resource id #)\d+` → `$1`, written
  out as a left-to-right scan.
- `report_files.dfy`: `getExceptionFile` and `logException`. The log directory is
  either unreadable or a list of names in iteration order. Exclusive create
  succeeds exactly when the name is not listed, and appends the name.
- `message_format.dfy`: `formatMessage`.
- `exception_processor.dfy`: `__invoke`.
- `pipeline.dfy`: the logger and the processor composed.

Errors are values. An unreadable log directory makes the directory iterator
throw; this is `Err(DirectoryUnreadable)`. A context `exception` that is not a
`Throwable` is the type error of the `logException(Throwable)` call; this is
`Err(NotThrowable)`.

## Model

| member | source | states |
|---|---|---|
| Logger.LevelOf | src/Logger.php:19-26 | Each table priority maps to its level: debug→Debug, info→Info, warning→Warning, exception and critical→Critical. Any other priority maps to Error (the `?? ERROR` of line 50). Each direction is an iff. Notice, Alert and Emergency are never produced. |
| Logger.Entry | src/Logger.php:40-52 | The record has the priority's level and `at` = the call site. For a throwable: the message is empty and the context keys are exactly `at` and `exception`, with `exception` = the throwable. For text: the message is unchanged and `at` is the only key. |
| Logger.Log | src/Logger.php:38-54 | The sink gains exactly one record, at its end, and its earlier records are untouched. |
| Logger.DefaultPriorityIsInfo | src/Logger.php:38 | Without a priority argument, the record is logged at Info. |
| Strings.IndexOf | src/Processors/TracyExceptionProcessor.php:75 | `strpos` finds an index iff the needle occurs, and the index is the first occurrence. |
| Strings.Translate | src/Processors/TracyExceptionProcessor.php:72 | `strtr` with one target: the length is kept, each character in the set becomes the target, every other character is kept. |
| Strings.Trim | src/Processors/TracyExceptionProcessor.php:98 | The result is a contiguous part of the input. Only trim characters (" \t\n\r\0\x0B") are cut on either side, and neither end of the result is a trim character. |
| Strings.Join | src/Processors/TracyExceptionProcessor.php:97 | `implode`: an empty list gives "". Otherwise the result starts with the first part and ends with the last part. |
| Strings.JoinAppend | src/Processors/TracyExceptionProcessor.php:97 | Joining two non-empty lists one after the other is joining each and putting exactly one separator between them, so every pair of neighbouring parts is separated by exactly one separator and no part is dropped. |
| Strings.JoinUntrimmed | src/Processors/TracyExceptionProcessor.php:97-98 | If the first part does not open with a trim character and the last part ends with a digit, `trim` leaves the join unchanged. |
| Strings.IntToString | src/Processors/TracyExceptionProcessor.php:94 | The line number's text spells the number in decimal: for n ≥ 0 it is all digits whose value is n, with no leading zero, so 0 is exactly "0"; for n < 0 it is `-` followed by the digits of -n, with no leading zero. It always ends with a digit. |
| ResourceIds.Normalize | src/Processors/TracyExceptionProcessor.php:73 | The `preg_replace` itself, as a leftmost scan: where `Resource id #` is followed by a digit, the marker is kept and the greedy digit run is dropped; elsewhere one character is copied. Its own contract promises only that the text does not grow (`|r| <= |s|`); its meaning is carried by NormalizeWithoutMarker, NormalizeAppend, ResourceIdErased and ResourceIdIgnored. |
| ResourceIds.NormalizeWithoutMarker | src/Processors/TracyExceptionProcessor.php:73 | Text that never contains `Resource id #` is unchanged by the replacement. |
| ResourceIds.NormalizeAppend | src/Processors/TracyExceptionProcessor.php:73 | If the second text opens with at least a marker's length of non-digits, the two halves are normalised independently. |
| ResourceIds.ResourceIdErased | src/Processors/TracyExceptionProcessor.php:73 | Around one handle `Resource id #<digits>`, the marker is kept. The whole digit run after it is dropped, along with any digits that directly follow. |
| ResourceIds.ResourceIdIgnored | src/Processors/TracyExceptionProcessor.php:73 | Two texts that differ only in one handle's number normalise to the same text. |
| ReportFiles.Hash | src/Processors/TracyExceptionProcessor.php:73 | The hash is the first 10 characters of the md5 of the normalised text. It is the whole digest if the digest is shorter (PHP `substr`). |
| ReportFiles.HashOfWellFormedDigest | src/Processors/TracyExceptionProcessor.php:73 | For a real md5 digest (lower-case hex), the hash is exactly 10 hex characters. |
| ReportFiles.DirectoryPrefix | src/Processors/TracyExceptionProcessor.php:72 | The prefix is the directory plus one character. Every `/` and `\` becomes the separator, the other characters are kept, and it ends with the separator. |
| ReportFiles.NameMatchesIff | src/Processors/TracyExceptionProcessor.php:75 | A listed name is accepted iff it contains the hash but does not start with it. A hit at index 0 is falsy in PHP. |
| ReportFiles.NameMatches | src/Processors/TracyExceptionProcessor.php:75 | The truthiness of `strpos($file, $hash)`: true when the hash is found at a position other than 0. It carries no contract of its own; NameMatchesIff states it as an iff over occurrences. |
| ReportFiles.Find | src/Processors/TracyExceptionProcessor.php:74-78 | The scan finds a name iff some listed name is accepted, and then returns the first accepted one in iteration order. |
| ReportFiles.ExceptionFile | src/Processors/TracyExceptionProcessor.php:70-80 | Fails iff the directory is unreadable. The path is under the normalised directory prefix. It is the first accepted listed name, or `exception--<time>--<hash>.html` when none is accepted. |
| ReportFiles.SynthesizedName | src/Processors/TracyExceptionProcessor.php:79 | `exception--<time>--<hash>.html`: it has the length of its pieces, opens with `exception--`, holds the hash right after the time and `--`, and ends with `.html`. |
| ReportFiles.ExclusiveCreate | src/Processors/TracyExceptionProcessor.php:52 | `fopen(…, 'x')` succeeds iff the name is not listed. On success the name is appended; otherwise the directory is unchanged. |
| ReportFiles.LogException | src/Processors/TracyExceptionProcessor.php:49-63 | Fails iff the directory is unreadable. The file is the one `getExceptionFile` chose, and "created" is true iff its name was not listed. A creating call appends the name and writes the rendered report. Any other call leaves the directory alone and writes nothing. |
| ReportFiles.SameFileUpToResourceId | src/Processors/TracyExceptionProcessor.php:73-79 | Two exceptions whose texts differ only in one resource-handle number get the same hash and the same report file. |
| ReportFiles.SynthesizedNameMatches | src/Processors/TracyExceptionProcessor.php:79 | A synthesised name is accepted by the scan for its own hash, because it contains the hash and does not start with it. |
| ReportFiles.FindAfterAppend | src/Processors/TracyExceptionProcessor.php:74-77 | If no listed name is accepted and an accepted name is appended, the scan returns that name. |
| ReportFiles.LookupFindsSynthesized | src/Processors/TracyExceptionProcessor.php:74-79 | After a synthesised report is listed, looking up the same exception at any later time returns that same file. |
| ReportFiles.SynthesizedNameIsNew | src/Processors/TracyExceptionProcessor.php:79 | If no listed name is accepted, the synthesised name is not yet listed, so the exclusive create makes it. |
| ReportFiles.SecondLogReuses | src/Processors/TracyExceptionProcessor.php:49-62 | Logging the same exception again, on the directory the first call left and at any time, returns the first call's file. It reports "not created", leaves the directory as it is and renders nothing. |
| ReportFiles.RaceHasOneWinner | src/Processors/TracyExceptionProcessor.php:51-61 | Two writers that scan the same listing in the same minute name the same file. The first exclusive create wins, the second finds the file present, and the name is listed once. |
| MessageFormat.Segments | src/Processors/TracyExceptionProcessor.php:89-96 | The loop produces one segment per throwable of the cause chain. The first segment is the outermost throwable's, and every segment ends with a line-number digit. |
| MessageFormat.Label | src/Processors/TracyExceptionProcessor.php:91-93 | The severity name from `errorTypeToString` for an `ErrorException` (a throwable with a severity), the class name from `getClass` otherwise. It carries no contract of its own; SegmentsFollowChain uses it per link. |
| MessageFormat.Segment | src/Processors/TracyExceptionProcessor.php:91-94 | `<label>: <message> in <file>:<line>` for one throwable; its contract promises it ends with a digit of the line number. |
| MessageFormat.SegmentsFollowChain | src/Processors/TracyExceptionProcessor.php:90-95 | Segment k is `<label>: <message> in <file>:<line>` of the throwable k steps down the `getPrevious()` chain. |
| MessageFormat.FormatMessage | src/Processors/TracyExceptionProcessor.php:97-98 | The message is the joined segments with only trim characters cut off its ends. It does not open with a trim character, and it ends with the innermost throwable's line digit. |
| MessageFormat.FormatMessageIsJoin | src/Processors/TracyExceptionProcessor.php:97-98 | If the outermost label does not open with a trim character, `trim` removes nothing and the message is exactly the join. |
| MessageFormat.FormatMessageUnfolds | src/Processors/TracyExceptionProcessor.php:89-98 | If the outermost label does not open with a trim character, the message is the outermost segment. If the throwable wraps a cause, the segment is followed by "\ncaused by " and the cause's joined segments. |
| MessageFormat.TwoLinkChainExample | src/Processors/TracyExceptionProcessor.php:87-99 | `A("msg1", f:1)` caused by `B("msg2", f:2)` formats as `A: msg1 in f:1\ncaused by B: msg2 in f:2`. |
| ExceptionProcessor.AddReport | src/Processors/TracyExceptionProcessor.php:35-36 | The context keeps every other entry, and its keys grow by exactly `tracy_filename` and `tracy_created`, which hold the given values. |
| ExceptionProcessor.HasException | src/Processors/TracyExceptionProcessor.php:33 | `isset($record['context']['exception'])`: the key is present and its value is not null. It carries no contract of its own; Invoke's contract states the branch it selects. |
| ExceptionProcessor.Annotate | src/Processors/TracyExceptionProcessor.php:34-39 | The level is kept and the report's base name and created flag are added to the context. Only an empty message is replaced by the formatted cause chain. |
| ExceptionProcessor.Invoke | src/Processors/TracyExceptionProcessor.php:31-42 | Without a set exception the record and the directory are unchanged. A non-Throwable exception is a type error. Otherwise the call fails iff the directory is unreadable, and on success the record is annotated with the report that `logException` produced. |
| Pipeline.LoggedThrowableGetsChainMessage | src/Logger.php:44-52 | A throwable logged through the adapter on a readable directory comes out of the processor with four context keys: `at`, `exception`, `tracy_filename` and `tracy_created`. The message is the formatted cause chain, the level is the priority's level, and the throwable and call site are preserved. |
| Pipeline.ThrownEntryAnnotated | src/Processors/TracyExceptionProcessor.php:33-39 | Annotating the logger's record for a throwable fills in the chain message, because that record's message is empty, and adds exactly the two report keys. |
| Pipeline.LoggedTextPassesThrough | src/Processors/TracyExceptionProcessor.php:33-41 | A text message logged through the adapter passes the processor unchanged, whatever the directory. |

## Left out

- The Nette DI extension (`MonologExtension`) and the logger's constructor are wiring, not behaviour.
- Rendering the report is `Host.render`: `BlueScreen::render`, the double output buffer and its 4096-byte chunked writes to the handle are modelled as one write of the whole rendered text. A render that throws is not modelled: in PHP it would leave the exclusively created file listed and partly written, leave both output buffers open and propagate out of `__invoke`, whereas `LogException` always returns `Ok` with the whole rendered text written.
- The file system is a list of names. Permission errors of `fopen` other than "file exists", partial writes and `fclose` are not modelled. Such a failed open reads as "not created", as in the source.
- Concurrency is modelled only as two exclusive creates in sequence (`RaceHasOneWinner`). Interleavings of the directory scan with other writers are not.
- The order of `DirectoryIterator` is whatever order the listing holds. A newly created file is taken to appear at the end.
- `md5`, the exception's string conversion, `basename`, `Helpers::getSource`, `Helpers::errorTypeToString` and `Helpers::getClass` are host functions or inputs. Their results are not constrained, except that `HashOfWellFormedDigest`, `LookupFindsSynthesized`, `SecondLogReuses` and `RaceHasOneWinner` assume `md5` returns a lower-case hex digest of at least ten characters; `SegmentHead`, `FormatMessageIsJoin` and `FormatMessageUnfolds` assume the outermost label (from `errorTypeToString` or `getClass`) does not open with a trim character; and `TwoLinkChainExample` assumes `getClass` returns "A" and "B" for the classes named so. Deduplication holds only for such a digest: a non-hex hash such as `exception-` would sit at index 0 of the synthesised name, and the scan would never find that file again.
- `date('Y-m-d--H-i')` is the input `ts`, the already formatted current minute. The clock and the time zone are not modelled.
- The full regex engine is not modelled. Only the one pattern `(Resource id #)\d+` is written out, with `\d` as the ASCII digits.
- A message to `log` that is neither a string nor a Throwable is not modelled. Monolog would convert it to a string.
- The record is reduced to level, message and context. Monolog's channel, time and extra fields pass through the processor untouched and are not modelled.
- `implode($tmp, "\ncaused by ")` passes its arguments in the legacy order (pieces first), which PHP accepted before 8.0. The model gives it the meaning of joining with "\ncaused by ".
- PHP strings are byte strings; the model uses `seq<char>`. Every character the core inspects (`/`, `\`, the trim characters, ASCII digits, hex digits, the `Resource id #` marker) is ASCII, so the two agree on them.
- The cause chain is an inductive value, so it is always finite. PHP's `while ($message)` walk over `getPrevious()` has no cycle guard and would loop forever on a cyclic chain; such a chain cannot be built through the `Throwable` constructor (only by reflection or by re-running the constructor on a live object), so the model leaves it out.
- The exclusive create is checked against the same listing the scan read, taking the translated prefix (`DirectoryPrefix`) to name the scanned directory. On a host whose separator is `/`, a `\` in the configured directory is a legal file-name character that the translation turns into `/`, so PHP would open the file in a different directory from the one listed; `LogException`, `SecondLogReuses` and `RaceHasOneWinner` do not cover that case.

=== FILE: base.dfy ===
/** Failure-carrying datatypes shared by the rest of the model. */
module Base {

  /** A value that may be absent (PHP `null`). */
  datatype Option<+T> = None | Some(value: T)

  /** Either a value or the error the source raises instead of returning one. */
  datatype Result<+T, +E> = Ok(value: T) | Err(error: E)
}

=== FILE: exception_processor.dfy ===
/**
 * The Monolog processor: a record that carries an exception in its context gets
 * the report file's name and creation flag added to the context, and an empty
 * message is replaced by the formatted cause chain.
 */
module ExceptionProcessor {
  import opened Base
  import opened Records
  import opened ReportFiles
  import opened MessageFormat

  const FilenameKey: string := "tracy_filename"
  const CreatedKey: string := "tracy_created"

  /** `isset($record['context']['exception'])`: the key is present and not null. */
  predicate HasException(context: Context)
  {
    "exception" in context && context["exception"] != Null
  }

  /** The rewritten record and the log directory after the call. */
  datatype Processed = Processed(record: Record, after: Directory)

  /**
   * The context with the report file's name and creation flag added: two keys
   * are set, every other entry stays as it was.
   */
  function AddReport(context: Context, name: string, created: bool): (r: Context)
    ensures r.Keys == context.Keys + {FilenameKey, CreatedKey}
    ensures forall k :: k in context && k != FilenameKey && k != CreatedKey ==> r[k] == context[k]
    ensures r[FilenameKey] == Str(name)
    ensures r[CreatedKey] == Bool(created)
  {
    context[FilenameKey := Str(name)][CreatedKey := Bool(created)]
  }

  /**
   * The rewrite of a record whose context carries the throwable `t`, once its report
   * file is settled: the report's base name and creation flag join the context,
   * and only an empty message is replaced by the formatted cause chain.
   */
  function Annotate(host: Host, record: Record, t: Throwable, logged: Logged): (r: Record)
    ensures r.level == record.level
    ensures r.context == AddReport(record.context, host.basename(logged.file.Path()), logged.created)
    ensures record.message == "" ==> r.message == FormatMessage(host, t)
    ensures record.message != "" ==> r.message == record.message
  {
    var context := AddReport(record.context, host.basename(logged.file.Path()), logged.created);
    var message := if record.message == "" then FormatMessage(host, t) else record.message;
    Record(record.level, message, context)
  }

  /**
   * `__invoke`: processes one record. A present exception that is not a Throwable
   * is the type error of passing it to `logException`; an unreadable directory is
   * the failure of the directory scan. Otherwise the record is annotated with the
   * report file that `logException` found or created.
   */
  function Invoke(host: Host, directory: string, fs: Directory, ts: string, record: Record)
    : (r: Result<Processed, Failure>)
    ensures !HasException(record.context) ==> r == Ok(Processed(record, fs))
    ensures HasException(record.context) && !record.context["exception"].Exc? ==> r == Err(NotThrowable)
    ensures HasException(record.context) && record.context["exception"].Exc? ==>
      (r.Err? <==> fs.Unreadable?)
    ensures r.Ok? && HasException(record.context) ==>
      var t := record.context["exception"].t;
      var logged := LogException(host, directory, fs, t, ts).value;
      r.value == Processed(Annotate(host, record, t, logged), logged.after)
  {
    if !HasException(record.context) then Ok(Processed(record, fs))
    else
      match record.context["exception"]
      case Exc(t) =>
        (match LogException(host, directory, fs, t, ts)
         case Err(e) => Err(e)
         case Ok(logged) => Ok(Processed(Annotate(host, record, t, logged), logged.after)))
      case _ => Err(NotThrowable)
  }
}

=== FILE: logger.dfy ===
/**
 * The error-screen logger that forwards to Monolog: its priority table and the
 * shaping of the record it hands to the sink.
 */
module Logger {
  import opened Base
  import opened Records

  /** The error-screen logger's priorities (the `ILogger` constants). */
  const DEBUG: string := "debug"
  const INFO: string := "info"
  const WARNING: string := "warning"
  const ERROR: string := "error"
  const EXCEPTION: string := "exception"
  const CRITICAL: string := "critical"

  /** The priority table: error-screen priority to Monolog level. */
  const PriorityMap: map<string, Level> := map[
    DEBUG := Level.Debug,
    INFO := Level.Info,
    WARNING := Level.Warning,
    ERROR := Level.Error,
    EXCEPTION := Level.Critical,
    CRITICAL := Level.Critical]

  /**
   * The level a priority is logged at: the table entry, or `Error` for a priority
   * the table does not know. Every priority gets a level, and the preimage of each
   * level is stated below.
   */
  function LevelOf(priority: string): (r: Level)
    ensures r == Level.Debug <==> priority == DEBUG
    ensures r == Level.Info <==> priority == INFO
    ensures r == Level.Warning <==> priority == WARNING
    ensures r == Level.Critical <==> priority == EXCEPTION || priority == CRITICAL
    ensures r == Level.Error <==> priority !in {DEBUG, INFO, WARNING, EXCEPTION, CRITICAL}
    ensures r !in {Level.Notice, Level.Alert, Level.Emergency}
  {
    if priority in PriorityMap then PriorityMap[priority] else Level.Error
  }

  /** What `log` accepts as its message: text or a throwable. */
  datatype Message = Text(text: string) | Thrown(t: Throwable)

  /** The call-site location (`Helpers::getSource()`, possibly null) as a context value. */
  function AtValue(at: Option<string>): ContextValue
  {
    match at
    case Some(s) => Str(s)
    case None => Null
  }

  /**
   * The record `log` passes to the sink. A throwable travels in the context under
   * `exception` and leaves the message empty; text is passed through as it is.
   */
  function Entry(message: Message, at: Option<string>, priority: string): (r: Record)
    ensures r.level == LevelOf(priority)
    ensures "at" in r.context && r.context["at"] == AtValue(at)
    ensures message.Thrown? ==>
      && r.message == ""
      && r.context.Keys == {"at", "exception"}
      && r.context["exception"] == Exc(message.t)
    ensures message.Text? ==> r.message == message.text && r.context.Keys == {"at"}
  {
    var context := map["at" := AtValue(at)];
    match message
    case Thrown(t) => Record(LevelOf(priority), "", context["exception" := Exc(t)])
    case Text(text) => Record(LevelOf(priority), text, context)
  }

  /**
   * `log($message, $priority = INFO)`: the sink, seen as the sequence of records it
   * has received, gains exactly one record at its end.
   */
  function Log(sink: seq<Record>, message: Message, at: Option<string>, priority: string := INFO): (sink': seq<Record>)
    ensures |sink'| == |sink| + 1
    ensures sink'[..|sink|] == sink
    ensures sink'[|sink|] == Entry(message, at, priority)
  {
    sink + [Entry(message, at, priority)]
  }

  /** Without a priority, `log` records at Monolog's `Info` level. */
  lemma DefaultPriorityIsInfo(sink: seq<Record>, message: Message, at: Option<string>)
    ensures Log(sink, message, at)[|sink|].level == Level.Info
  {
  }
}

=== FILE: message_format.dfy ===
/**
 * `formatMessage`: one line per throwable of the cause chain, outermost first,
 * joined by "\ncaused by " and trimmed.
 */
module MessageFormat {
  import opened Base
  import opened Strings
  import opened Records

  const CausedBy: string := "\ncaused by "

  /** Number of throwables in the chain that starts at `t`. */
  function Depth(t: Throwable): (n: nat)
    ensures n >= 1
  {
    match t.previous
    case None => 1
    case Some(p) => 1 + Depth(p)
  }

  /** The throwable `k` steps down the cause chain from `t`. */
  function Nth(t: Throwable, k: nat): Throwable
    requires k < Depth(t)
  {
    if k == 0 then t else Nth(t.previous.value, k - 1)
  }

  /** The severity name for an `ErrorException`, the class name for any other throwable. */
  function Label(host: Host, t: Throwable): string
  {
    match t.severity
    case Some(severity) => host.errorTypeName(severity)
    case None => host.classLabel(t.className)
  }

  /** `"<label>: <message> in <file>:<line>"`. */
  function Segment(host: Host, t: Throwable): (r: string)
    ensures EndsWithDigit(r)
  {
    Label(host, t) + ": " + t.message + " in " + t.file + ":" + IntToString(t.line)
  }

  /** The loop `while ($message)`: the segments of the chain, outermost first. */
  function Segments(host: Host, t: Throwable): (r: seq<string>)
    ensures |r| == Depth(t)
    ensures r[0] == Segment(host, t)
    ensures forall k :: 0 <= k < |r| ==> EndsWithDigit(r[k])
  {
    match t.previous
    case None => [Segment(host, t)]
    case Some(p) => [Segment(host, t)] + Segments(host, p)
  }

  /** Segment `k` of the chain is the formatted `k`-th throwable, outermost first. */
  lemma {:induction false} SegmentsFollowChain(host: Host, t: Throwable)
    ensures forall k :: 0 <= k < Depth(t) ==> Segments(host, t)[k] == Segment(host, Nth(t, k))
  {
    match t.previous
    case None =>
    case Some(p) =>
      SegmentsFollowChain(host, p);
      var segs := Segments(host, t);
      assert segs == [Segment(host, t)] + Segments(host, p);
      forall k | 0 <= k < Depth(t)
        ensures segs[k] == Segment(host, Nth(t, k))
      {
        if k > 0 {
          assert segs[k] == Segments(host, p)[k - 1];
          assert Nth(t, k) == Nth(p, k - 1);
        }
      }
  }

  /** `trim(implode("\ncaused by ", $segments))`. */
  function FormatMessage(host: Host, t: Throwable): (r: string)
    ensures EndsWithDigit(r)
    ensures TrimmedFrom(Join(Segments(host, t), CausedBy), r)
    ensures !IsTrimChar(r[0])
  {
    JoinedEndsWithDigit(host, t);
    var joined := Join(Segments(host, t), CausedBy);
    TrimDigitEnded(joined);
    Trim(joined)
  }

  /** The joined segments end with the innermost throwable's line number. */
  lemma JoinedEndsWithDigit(host: Host, t: Throwable)
    ensures EndsWithDigit(Join(Segments(host, t), CausedBy))
  {
    var segs := Segments(host, t);
    assert EndsWithDigit(segs[|segs| - 1]);
    JoinEndsWithLast(segs, CausedBy);
  }

  /** A segment opens with its label, or with the colon after an empty label. */
  lemma SegmentHead(host: Host, t: Throwable)
    requires |Label(host, t)| == 0 || !IsTrimChar(Label(host, t)[0])
    ensures |Segment(host, t)| > 0 && !IsTrimChar(Segment(host, t)[0])
  {
    var name := Label(host, t);
    var rest := ": " + t.message + " in " + t.file + ":" + IntToString(t.line);
    assert Segment(host, t) == name + rest;
    assert Segment(host, t)[0] == (if |name| == 0 then ':' else name[0]);
  }

  /** Nothing of the joined segments is trimmed when the outermost label does not open with a trim character. */
  lemma FormatMessageIsJoin(host: Host, t: Throwable)
    requires |Label(host, t)| == 0 || !IsTrimChar(Label(host, t)[0])
    ensures FormatMessage(host, t) == Join(Segments(host, t), CausedBy)
  {
    var segs := Segments(host, t);
    SegmentHead(host, t);
    assert EndsWithDigit(segs[|segs| - 1]);
    JoinUntrimmed(segs, CausedBy);
  }

  /**
   * When the outermost label does not open with a trim character, nothing is trimmed:
   * the message is the outermost segment, followed for a wrapped cause by
   * "\ncaused by " and the cause's own joined segments.
   */
  lemma FormatMessageUnfolds(host: Host, t: Throwable)
    requires |Label(host, t)| == 0 || !IsTrimChar(Label(host, t)[0])
    ensures t.previous.None? ==> FormatMessage(host, t) == Segment(host, t)
    ensures t.previous.Some? ==>
      FormatMessage(host, t) == Segment(host, t) + CausedBy + Join(Segments(host, t.previous.value), CausedBy)
  {
    FormatMessageIsJoin(host, t);
    var segs := Segments(host, t);
    match t.previous
    case None =>
    case Some(p) =>
      JoinCons(segs, CausedBy);
      assert segs[1..] == Segments(host, p);
  }

  /** The two-link chain "A: msg1 in f:1" caused by "B: msg2 in f:2". */
  lemma TwoLinkChainExample(host: Host)
    requires host.classLabel("A") == "A" && host.classLabel("B") == "B"
    ensures
      var inner := Throwable("B", None, "msg2", "f", 2, None);
      var outer := Throwable("A", None, "msg1", "f", 1, Some(inner));
      FormatMessage(host, outer) == "A: msg1 in f:1\ncaused by B: msg2 in f:2"
  {
    var inner := Throwable("B", None, "msg2", "f", 2, None);
    var outer := Throwable("A", None, "msg1", "f", 1, Some(inner));
    var a := Segment(host, outer);
    var b := Segment(host, inner);
    FormatMessageUnfolds(host, outer);
    assert Segments(host, inner) == [b];
    assert Join([b], CausedBy) == b;
    ExampleSegment(host, outer);
    ExampleSegment(host, inner);
    ExampleDigits();
    ExampleLiterals();
  }

  /**
   * The example's segments and message, spelled out. Each literal equality is its
   * own lemma because the solver handles string literals far more cheaply one at a
   * time than together in one proof.
   */
  lemma ExampleLiterals()
    ensures "A" + ": " + "msg1" + " in f:" + "1" == "A: msg1 in f:1"
    ensures "B" + ": " + "msg2" + " in f:" + "2" == "B: msg2 in f:2"
    ensures "A: msg1 in f:1" + CausedBy + "B: msg2 in f:2" == "A: msg1 in f:1\ncaused by B: msg2 in f:2"
  {
    ExampleOuterLiteral();
    ExampleInnerLiteral();
    ExampleJoinLiteral();
  }

  lemma ExampleOuterLiteral()
    ensures "A" + ": " + "msg1" + " in f:" + "1" == "A: msg1 in f:1"
  {
  }

  lemma ExampleInnerLiteral()
    ensures "B" + ": " + "msg2" + " in f:" + "2" == "B: msg2 in f:2"
  {
  }

  lemma ExampleJoinLiteral()
    ensures "A: msg1 in f:1" + CausedBy + "B: msg2 in f:2" == "A: msg1 in f:1\ncaused by B: msg2 in f:2"
  {
  }

  lemma ExampleDigits()
    ensures NatToString(1) == "1" && NatToString(2) == "2"
  {
  }

  /** A segment of a plain throwable raised in file "f". */
  lemma ExampleSegment(host: Host, t: Throwable)
    requires host.classLabel(t.className) == t.className && t.severity.None? && t.file == "f" && t.line >= 0
    ensures Segment(host, t) == t.className + ": " + t.message + " in f:" + NatToString(t.line)
  {
  }
}

=== FILE: pipeline.dfy ===
/**
 * The adapter end to end: the logger builds a record, the Monolog logger runs the
 * exception processor on it.
 */
module Pipeline {
  import opened Base
  import opened Records
  import Logger
  import opened ReportFiles
  import opened MessageFormat
  import opened ExceptionProcessor

  /**
   * A throwable logged through the adapter reaches the processor with an empty
   * message, so the record that comes out carries the formatted cause chain, the
   * priority's level, the call site and the throwable itself.
   */
  lemma LoggedThrowableGetsChainMessage(
    host: Host, directory: string, names: seq<string>, ts: string,
    t: Throwable, at: Option<string>, priority: string)
    ensures
      var entry := Logger.Entry(Logger.Thrown(t), at, priority);
      var r := Invoke(host, directory, Listing(names), ts, entry);
      && r.Ok?
      && r.value.record.message == FormatMessage(host, t)
      && r.value.record.level == Logger.LevelOf(priority)
      && r.value.record.context.Keys == {"at", "exception", FilenameKey, CreatedKey}
      && r.value.record.context["exception"] == Exc(t)
      && r.value.record.context["at"] == Logger.AtValue(at)
  {
    var entry := Logger.Entry(Logger.Thrown(t), at, priority);
    assert HasException(entry.context) && entry.context["exception"] == Exc(t);
    var logged := LogException(host, directory, Listing(names), t, ts);
    assert logged.Ok?;
    assert Invoke(host, directory, Listing(names), ts, entry)
      == Ok(Processed(Annotate(host, entry, t, logged.value), logged.value.after));
    ThrownEntryAnnotated(host, t, at, priority, logged.value);
  }

  /** The annotation of a freshly logged throwable's record. */
  lemma ThrownEntryAnnotated(host: Host, t: Throwable, at: Option<string>, priority: string, logged: Logged)
    ensures
      var out := Annotate(host, Logger.Entry(Logger.Thrown(t), at, priority), t, logged);
      && out.message == FormatMessage(host, t)
      && out.level == Logger.LevelOf(priority)
      && out.context.Keys == {"at", "exception", FilenameKey, CreatedKey}
      && out.context["exception"] == Exc(t)
      && out.context["at"] == Logger.AtValue(at)
  {
    var entry := Logger.Entry(Logger.Thrown(t), at, priority);
    var c := entry.context;
    assert "exception" in c && "at" in c;
    var out := Annotate(host, entry, t, logged);
    var name := host.basename(logged.file.Path());
    assert out.context == AddReport(c, name, logged.created);
    assert "exception" != FilenameKey && "exception" != CreatedKey;
    assert "at" != FilenameKey && "at" != CreatedKey;
    assert out.context.Keys == c.Keys + {FilenameKey, CreatedKey};
  }

  /** A text message logged through the adapter passes the processor untouched. */
  lemma LoggedTextPassesThrough(
    host: Host, directory: string, fs: Directory, ts: string,
    text: string, at: Option<string>, priority: string)
    ensures
      var entry := Logger.Entry(Logger.Text(text), at, priority);
      Invoke(host, directory, fs, ts, entry) == Ok(Processed(entry, fs))
  {
    var entry := Logger.Entry(Logger.Text(text), at, priority);
    assert "exception" !in entry.context;
  }
}

=== FILE: records.dfy ===
/**
 * The values that flow from the error-screen logger into the Monolog sink: the
 * throwable cause chain, the record's context values, the record itself, and the
 * host functions (hashing, rendering, naming) the core calls but does not define.
 */
module Records {
  import opened Base

  /** Monolog's severity levels (RFC 5424 names), as an enumeration. */
  datatype Level = Debug | Info | Notice | Warning | Error | Critical | Alert | Emergency

  /**
   * A PHP `Throwable` as far as the core looks at it. `severity` is present exactly
   * when the object is an `ErrorException`; `previous` is `getPrevious()`. The chain
   * is an inductive value, so it is always finite.
   */
  datatype Throwable = Throwable(
    className: string,
    severity: Option<int>,
    message: string,
    file: string,
    line: int,
    previous: Option<Throwable>)

  /** A value stored in a record's context array. */
  datatype ContextValue =
    | Null
    | Str(s: string)
    | Bool(b: bool)
    | Exc(t: Throwable)

  type Context = map<string, ContextValue>

  /** A Monolog record: the fields the adapter writes and the processor rewrites. */
  datatype Record = Record(level: Level, message: string, context: Context)

  /**
   * The functions the core calls into but that lie outside it, plus the platform's
   * `DIRECTORY_SEPARATOR`:
   *   md5           PHP `md5`, a lower-case hex digest
   *   dump          the string conversion `(string)$exception`
   *   render        the HTML the error screen (`BlueScreen::render`) writes
   *   basename      PHP `basename`
   *   errorTypeName `Helpers::errorTypeToString` of an `ErrorException` severity
   *   classLabel    `Helpers::getClass` of an object of the given class
   */
  datatype Host = Host(
    md5: string -> string,
    dump: Throwable -> string,
    render: Throwable -> string,
    basename: string -> string,
    errorTypeName: int -> string,
    classLabel: string -> string,
    separator: char)
}

=== FILE: report_files.dfy ===
/**
 * Naming and creating the HTML report file of an exception: a 10-character hash of
 * the exception's normalised text, a scan of the log directory for a file that
 * already carries it, a synthesised name otherwise, and an exclusive create.
 */
module ReportFiles {
  import opened Base
  import opened Strings
  import opened Records
  import opened ResourceIds

  /** How many digest characters name a report. */
  const HashLength: nat := 10

  predicate IsHexDigit(c: char)
  {
    '0' <= c <= '9' || 'a' <= c <= 'f'
  }

  /** What PHP `md5` returns: lower-case hex, at least as long as the report hash. */
  predicate WellFormedDigest(d: string)
  {
    |d| >= HashLength && forall i :: 0 <= i < |d| ==> IsHexDigit(d[i])
  }

  /**
   * The report hash of an exception text: `substr(md5(normalised text), 0, 10)`.
   * PHP `substr` returns the whole string when it is shorter than asked for.
   */
  function Hash(host: Host, text: string): (r: string)
    ensures var d := host.md5(Normalize(text));
      && |r| == (if |d| < HashLength then |d| else HashLength)
      && r == d[..|r|]
  {
    var d := host.md5(Normalize(text));
    if |d| < HashLength then d else d[..HashLength]
  }

  /** The hash of a throwable, taken over its string conversion. */
  function ExceptionHash(host: Host, exc: Throwable): string
  {
    Hash(host, host.dump(exc))
  }

  /**
   * `strtr($directory . '/', '\\/', DIRECTORY_SEPARATOR . DIRECTORY_SEPARATOR)`:
   * every slash and backslash becomes the separator, and one separator is appended.
   */
  function DirectoryPrefix(directory: string, sep: char): (r: string)
    ensures |r| == |directory| + 1
    ensures r[|directory|] == sep
    ensures forall i :: 0 <= i < |directory| ==>
      r[i] == (if directory[i] == '\\' || directory[i] == '/' then sep else directory[i])
  {
    Translate(directory + "/", {'\\', '/'}, sep)
  }

  /** `strpos($name, $hash)` is truthy: found, and not at index 0 (which PHP reads as false). */
  predicate NameMatches(name: string, hash: string)
  {
    match IndexOf(name, hash)
    case Some(i) => i != 0
    case None => false
  }

  /** A listed name is taken for the report exactly when it holds the hash but does not begin with it. */
  lemma NameMatchesIff(name: string, hash: string)
    ensures NameMatches(name, hash) <==> OccursFrom(name, hash, 1) && !OccursAt(name, hash, 0)
  {
    var r := IndexOf(name, hash);
    if OccursFrom(name, hash, 1) && !OccursAt(name, hash, 0) {
      var i :| 1 <= i && OccursAt(name, hash, i);
      assert OccursFrom(name, hash, 0);
      assert r.Some? && r.value != 0;
    }
    if NameMatches(name, hash) {
      assert OccursAt(name, hash, r.value) && r.value >= 1;
    }
  }

  /** `k` is the first listed name that the scan accepts. */
  ghost predicate IsFirstMatch(names: seq<string>, hash: string, k: int)
  {
    && 0 <= k < |names|
    && NameMatches(names[k], hash)
    && forall j :: 0 <= j < k ==> !NameMatches(names[j], hash)
  }

  /** There is only one first accepted name. */
  lemma FirstMatchUnique(names: seq<string>, hash: string, k: int, k': int)
    requires IsFirstMatch(names, hash, k) && IsFirstMatch(names, hash, k')
    ensures k == k'
  {
  }

  /** The scan accepts no listed name. */
  ghost predicate NoMatch(names: seq<string>, hash: string)
  {
    forall j :: 0 <= j < |names| ==> !NameMatches(names[j], hash)
  }

  /** The `foreach` over the directory, from position `from` on: the first accepted name. */
  function FindFrom(names: seq<string>, hash: string, from: nat): (r: Option<nat>)
    requires from <= |names|
    ensures r.Some? ==> from <= r.value < |names| && NameMatches(names[r.value], hash)
    ensures r.Some? ==> forall j :: from <= j < r.value ==> !NameMatches(names[j], hash)
    ensures r.None? ==> forall j :: from <= j < |names| ==> !NameMatches(names[j], hash)
    decreases |names| - from
  {
    if from == |names| then None
    else if NameMatches(names[from], hash) then Some(from)
    else FindFrom(names, hash, from + 1)
  }

  /** The scan of the whole listing, in iteration order. */
  function Find(names: seq<string>, hash: string): (r: Option<nat>)
    ensures r.Some? <==> !NoMatch(names, hash)
    ensures r.Some? ==> IsFirstMatch(names, hash, r.value)
  {
    FindFrom(names, hash, 0)
  }

  const Prefix: string := "exception--"
  const Suffix: string := ".html"

  /** `'exception--' . date('Y-m-d--H-i') . "--$hash.html"` for the formatted time `ts`. */
  function SynthesizedName(ts: string, hash: string): (r: string)
    ensures |r| == |Prefix| + |ts| + 2 + |hash| + |Suffix|
    ensures r[..|Prefix|] == Prefix
    ensures OccursAt(r, hash, |Prefix| + |ts| + 2)
    ensures r[|r| - |Suffix|..] == Suffix
  {
    Prefix + ts + "--" + hash + Suffix
  }

  /** A log directory: one that cannot be opened, or the names it lists in iteration order. */
  datatype Directory = Unreadable | Listing(names: seq<string>)

  /** A report path, kept as its two parts: the directory prefix and the file name. */
  datatype ReportFile = ReportFile(dir: string, name: string)
  {
    function Path(): string
    {
      dir + name
    }
  }

  /** The exceptions the core can raise. */
  datatype Failure =
    | DirectoryUnreadable  // the directory iterator cannot open the log directory
    | NotThrowable         // the context's `exception` is not a Throwable (a type error)

  /**
   * `getExceptionFile`: the first listed name accepted by the scan, or a fresh name
   * built from the time and the hash; either way under the normalised directory.
   */
  function ExceptionFile(host: Host, directory: string, fs: Directory, exc: Throwable, ts: string)
    : (r: Result<ReportFile, Failure>)
    ensures r.Err? <==> fs.Unreadable?
    ensures r.Ok? ==> r.value.dir == DirectoryPrefix(directory, host.separator)
    ensures r.Ok? && !NoMatch(fs.names, ExceptionHash(host, exc)) ==>
      exists k :: IsFirstMatch(fs.names, ExceptionHash(host, exc), k) && r.value.name == fs.names[k]
    ensures r.Ok? && NoMatch(fs.names, ExceptionHash(host, exc)) ==>
      r.value.name == SynthesizedName(ts, ExceptionHash(host, exc))
  {
    var dir := DirectoryPrefix(directory, host.separator);
    var hash := ExceptionHash(host, exc);
    match fs
    case Unreadable => Err(DirectoryUnreadable)
    case Listing(names) =>
      match Find(names, hash)
      case Some(k) => Ok(ReportFile(dir, names[k]))
      case None => Ok(ReportFile(dir, SynthesizedName(ts, hash)))
  }

  /** `fopen($file, 'x')`: creates the file unless its name is already listed. */
  function ExclusiveCreate(names: seq<string>, name: string): (r: (bool, seq<string>))
    ensures r.0 <==> name !in names
    ensures r.0 ==> r.1 == names + [name]
    ensures !r.0 ==> r.1 == names
    ensures name in r.1
  {
    if name in names then (false, names) else (true, names + [name])
  }

  /** What `logException` returns, with the directory after the call and what was written. */
  datatype Logged = Logged(created: bool, file: ReportFile, after: Directory, written: Option<string>)

  /**
   * `logException`: find or name the report file, then create it exclusively. Only
   * a call that creates the file renders the exception into it; a call that finds
   * the file present leaves the directory alone and renders nothing.
   */
  function LogException(host: Host, directory: string, fs: Directory, exc: Throwable, ts: string)
    : (r: Result<Logged, Failure>)
    ensures r.Err? <==> fs.Unreadable?
    ensures r.Ok? ==> ExceptionFile(host, directory, fs, exc, ts) == Ok(r.value.file)
    ensures r.Ok? ==> (r.value.created <==> r.value.file.name !in fs.names)
    ensures r.Ok? && r.value.created ==>
      && r.value.after == Listing(fs.names + [r.value.file.name])
      && r.value.written == Some(host.render(exc))
    ensures r.Ok? && !r.value.created ==> r.value.after == fs && r.value.written.None?
  {
    match ExceptionFile(host, directory, fs, exc, ts)
    case Err(e) => Err(e)
    case Ok(file) =>
      var (created, names) := ExclusiveCreate(fs.names, file.name);
      if created then Ok(Logged(true, file, Listing(names), Some(host.render(exc))))
      else Ok(Logged(false, file, fs, None))
  }

  /** A well-formed digest gives a hash of exactly ten hex characters. */
  lemma HashOfWellFormedDigest(host: Host, text: string)
    requires WellFormedDigest(host.md5(Normalize(text)))
    ensures |Hash(host, text)| == HashLength
    ensures forall i :: 0 <= i < HashLength ==> IsHexDigit(Hash(host, text)[i])
  {
  }

  /** Throwables whose texts differ only in one resource-handle number get the same report file. */
  lemma SameFileUpToResourceId(
    host: Host, directory: string, fs: Directory, e1: Throwable, e2: Throwable, ts: string,
    a: string, d1: string, d2: string, b: string)
    requires host.dump(e1) == a + Marker + d1 + b
    requires host.dump(e2) == a + Marker + d2 + b
    requires |d1| > 0 && AllDigits(d1) && |d2| > 0 && AllDigits(d2)
    ensures ExceptionHash(host, e1) == ExceptionHash(host, e2)
    ensures ExceptionFile(host, directory, fs, e1, ts) == ExceptionFile(host, directory, fs, e2, ts)
  {
    ResourceIdIgnored(a, d1, d2, b);
  }

  /** The synthesised name holds the hash after its fixed prefix and time, and so is accepted by the scan. */
  lemma SynthesizedNameMatches(ts: string, hash: string)
    requires |hash| == HashLength && forall i :: 0 <= i < |hash| ==> IsHexDigit(hash[i])
    ensures NameMatches(SynthesizedName(ts, hash), hash)
  {
    var name := SynthesizedName(ts, hash);
    var at := |Prefix| + |ts| + 2;
    assert name == (Prefix + ts + "--") + hash + Suffix;
    assert name[at..at + |hash|] == hash;
    assert OccursAt(name, hash, at);
    assert name[1] == 'x' && !IsHexDigit('x');
    assert name[1] != hash[1];
    assert name[..|hash|][1] == name[1];
    NameMatchesIff(name, hash);
  }

  /** Appending a name to a listing with no accepted name makes that name the first accepted one, if it is accepted. */
  lemma FindAfterAppend(names: seq<string>, name: string, hash: string)
    requires NoMatch(names, hash) && NameMatches(name, hash)
    ensures Find(names + [name], hash) == Some(|names|)
  {
    var ext := names + [name];
    assert forall j :: 0 <= j < |names| ==> ext[j] == names[j];
    assert !NoMatch(ext, hash) by {
      assert NameMatches(ext[|names|], hash);
    }
    assert forall j :: 0 <= j < |names| ==> !NameMatches(ext[j], hash);
  }

  /**
   * Idempotent naming: once a synthesised report file is listed, looking the same
   * exception up again, at any later time, yields the same file.
   */
  lemma LookupFindsSynthesized(host: Host, directory: string, names: seq<string>, exc: Throwable, ts: string, ts': string)
    requires WellFormedDigest(host.md5(Normalize(host.dump(exc))))
    requires NoMatch(names, ExceptionHash(host, exc))
    ensures var file := ExceptionFile(host, directory, Listing(names), exc, ts).value;
      ExceptionFile(host, directory, Listing(names + [file.name]), exc, ts') == Ok(file)
  {
    var hash := ExceptionHash(host, exc);
    HashOfWellFormedDigest(host, host.dump(exc));
    SynthesizedNameMatches(ts, hash);
    FindAfterAppend(names, SynthesizedName(ts, hash), hash);
  }

  /** When the scan accepts no listed name, the synthesised name is not listed yet. */
  lemma SynthesizedNameIsNew(names: seq<string>, hash: string, ts: string)
    requires |hash| == HashLength && forall i :: 0 <= i < |hash| ==> IsHexDigit(hash[i])
    requires NoMatch(names, hash)
    ensures SynthesizedName(ts, hash) !in names
  {
    SynthesizedNameMatches(ts, hash);
    forall j | 0 <= j < |names|
      ensures names[j] != SynthesizedName(ts, hash)
    {
      assert !NameMatches(names[j], hash);
    }
  }

  /**
   * Deduplication: logging the same exception a second time, on the directory the
   * first call left and at any time, reuses the first call's file, creates nothing
   * and renders nothing.
   */
  lemma SecondLogReuses(host: Host, directory: string, fs: Directory, exc: Throwable, ts: string, ts': string)
    requires fs.Listing?
    requires WellFormedDigest(host.md5(Normalize(host.dump(exc))))
    ensures var first := LogException(host, directory, fs, exc, ts).value;
      LogException(host, directory, first.after, exc, ts')
        == Ok(Logged(false, first.file, first.after, None))
  {
    var hash := ExceptionHash(host, exc);
    var first := LogException(host, directory, fs, exc, ts).value;
    HashOfWellFormedDigest(host, host.dump(exc));
    if NoMatch(fs.names, hash) {
      SynthesizedNameIsNew(fs.names, hash, ts);
      LookupFindsSynthesized(host, directory, fs.names, exc, ts, ts');
    } else {
      var k :| IsFirstMatch(fs.names, hash, k) && first.file.name == fs.names[k];
      assert first.file.name in fs.names;
      assert first.after == fs;
      var again := ExceptionFile(host, directory, fs, exc, ts').value;
      var k' :| IsFirstMatch(fs.names, hash, k') && again.name == fs.names[k'];
      FirstMatchUnique(fs.names, hash, k, k');
    }
  }

  /**
   * Two writers race on a directory with no report for the exception yet: both scan
   * the same listing at the same minute and name the same file, the first create
   * wins, and the second finds the file present.
   */
  lemma RaceHasOneWinner(host: Host, directory: string, names: seq<string>, exc: Throwable, ts: string)
    requires WellFormedDigest(host.md5(Normalize(host.dump(exc))))
    requires NoMatch(names, ExceptionHash(host, exc))
    ensures var file := ExceptionFile(host, directory, Listing(names), exc, ts).value;
      var (won1, after1) := ExclusiveCreate(names, file.name);
      var (won2, after2) := ExclusiveCreate(after1, file.name);
      won1 && !won2 && after2 == after1 == names + [file.name]
  {
    HashOfWellFormedDigest(host, host.dump(exc));
    SynthesizedNameIsNew(names, ExceptionHash(host, exc), ts);
  }
}

=== FILE: resource_ids.dfy ===
/**
 * The normalisation applied to an exception's text before hashing:
 * `preg_replace('~(Resource id #)\d+~', '$1', $text)`, which erases the number of
 * every PHP resource handle so that the hash does not depend on it.
 */
module ResourceIds {
  import opened Strings

  const Marker: string := "Resource id #"

  /** The pattern `(Resource id #)\d+` matches at the start of `s`. */
  predicate MatchAtStart(s: string)
  {
    |s| > |Marker| && s[..|Marker|] == Marker && IsDigit(s[|Marker|])
  }

  /** Drops the leading run of ASCII digits (the greedy `\d+`). */
  function SkipDigits(s: string): (r: string)
    ensures |r| <= |s| && r == s[|s| - |r|..]
    ensures AllDigits(s[..|s| - |r|])
    ensures |r| == 0 || !IsDigit(r[0])
  {
    if |s| > 0 && IsDigit(s[0]) then SkipDigits(s[1..]) else s
  }

  /**
   * The replacement, scanning left to right as the regex engine does: at each
   * position where the pattern matches, keep the marker and drop its digit run;
   * elsewhere copy one character and move on.
   */
  function Normalize(s: string): (r: string)
    ensures |r| <= |s|
    decreases |s|
  {
    if |s| == 0 then []
    else if MatchAtStart(s) then Marker + Normalize(SkipDigits(s[|Marker|..]))
    else [s[0]] + Normalize(s[1..])
  }

  /** Text that never mentions a resource handle is hashed as it is. */
  lemma {:induction false} NormalizeWithoutMarker(s: string)
    requires !OccursFrom(s, Marker, 0)
    ensures Normalize(s) == s
    decreases |s|
  {
    if |s| > 0 {
      assert !OccursAt(s, Marker, 0);
      assert !MatchAtStart(s);
      assert !OccursFrom(s[1..], Marker, 0) by {
        forall i | 0 <= i && OccursAt(s[1..], Marker, i)
          ensures false
        {
          assert s[1..][i..i + |Marker|] == s[i + 1..i + 1 + |Marker|];
          assert OccursAt(s, Marker, i + 1);
        }
      }
      NormalizeWithoutMarker(s[1..]);
    }
  }

  /** A digit run followed by more text loses only the run. */
  lemma {:induction false} SkipDigitsAppend(a: string, b: string)
    requires |b| == 0 || !IsDigit(b[0])
    ensures SkipDigits(a + b) == SkipDigits(a) + b
    decreases |a|
  {
    if |a| > 0 {
      assert (a + b)[0] == a[0];
      if IsDigit(a[0]) {
        assert (a + b)[1..] == a[1..] + b;
        SkipDigitsAppend(a[1..], b);
      }
    }
  }

  /** All the digits before `b` go with the same run. */
  lemma {:induction false} SkipDigitsAfterRun(d: string, b: string)
    requires AllDigits(d)
    ensures SkipDigits(d + b) == SkipDigits(b)
    decreases |d|
  {
    if |d| > 0 {
      assert IsDigit(d[0]);
      assert (d + b)[0] == d[0];
      assert (d + b)[1..] == d[1..] + b;
      assert AllDigits(d[1..]) by {
        forall i | 0 <= i < |d[1..]|
          ensures IsDigit(d[1..][i])
        {
          assert d[1..][i] == d[i + 1];
        }
      }
      SkipDigitsAfterRun(d[1..], b);
    } else {
      assert d + b == b;
    }
  }

  /** The first marker's length of `b` holds no digit. */
  predicate NoDigitHead(b: string)
  {
    forall i :: 0 <= i < |b| && i < |Marker| ==> !IsDigit(b[i])
  }

  /** A text that does not open with a match still does not once `b` is appended. */
  lemma NoMatchAcrossBoundary(a: string, b: string)
    requires |a| > 0 && !MatchAtStart(a) && NoDigitHead(b)
    ensures !MatchAtStart(a + b)
  {
    var s := a + b;
    if |a| > |Marker| {
      assert a[..|Marker|] == s[..|Marker|];
      assert a[|Marker|] == s[|Marker|];
    } else if |s| > |Marker| {
      assert s[|Marker|] == b[|Marker| - |a|];
    }
  }

  /** One step of `Normalize` where the pattern matches. */
  lemma NormalizeMatchStep(s: string, rest: string)
    requires MatchAtStart(s) && rest == SkipDigits(s[|Marker|..])
    ensures Normalize(s) == Marker + Normalize(rest)
  {
  }

  /** One step of `Normalize` where the pattern does not match. */
  lemma NormalizeCopyStep(s: string)
    requires |s| > 0 && !MatchAtStart(s)
    ensures Normalize(s) == [s[0]] + Normalize(s[1..])
  {
  }

  /** A text that opens with a match still does once anything is appended. */
  lemma MatchSurvivesAppend(a: string, b: string)
    requires MatchAtStart(a)
    ensures MatchAtStart(a + b)
    ensures (a + b)[|Marker|..] == a[|Marker|..] + b
  {
    var s := a + b;
    assert s[..|Marker|] == a[..|Marker|];
    assert s[|Marker|] == a[|Marker|];
  }

  /**
   * No match can straddle the boundary between `a` and `b` when `b` opens with
   * at least a marker's length of non-digits, so both halves normalise apart.
   */
  lemma {:induction false} NormalizeAppend(a: string, b: string)
    requires NoDigitHead(b)
    ensures Normalize(a + b) == Normalize(a) + Normalize(b)
    decreases |a|, 1
  {
    if |a| == 0 {
      assert a + b == b;
    } else if MatchAtStart(a) {
      NormalizeAppendAtMatch(a, b);
    } else {
      NormalizeAppendAtCopy(a, b);
    }
  }

  lemma {:induction false} NormalizeAppendAtMatch(a: string, b: string)
    requires NoDigitHead(b) && MatchAtStart(a)
    ensures Normalize(a + b) == Normalize(a) + Normalize(b)
    decreases |a|, 0
  {
    var tail := a[|Marker|..];
    var rest := SkipDigits(tail);
    MatchSurvivesAppend(a, b);
    assert |b| == 0 || !IsDigit(b[0]);
    SkipDigitsAppend(tail, b);
    NormalizeMatchStep(a + b, rest + b);
    NormalizeMatchStep(a, rest);
    NormalizeAppend(rest, b);
    AppendAssociative(Marker, Normalize(rest), Normalize(b));
  }

  lemma {:induction false} NormalizeAppendAtCopy(a: string, b: string)
    requires NoDigitHead(b) && |a| > 0 && !MatchAtStart(a)
    ensures Normalize(a + b) == Normalize(a) + Normalize(b)
    decreases |a|, 0
  {
    NoMatchAcrossBoundary(a, b);
    assert (a + b)[0] == a[0];
    assert (a + b)[1..] == a[1..] + b;
    NormalizeCopyStep(a + b);
    NormalizeCopyStep(a);
    NormalizeAppend(a[1..], b);
  }

  /**
   * Normalising a text around one resource handle: the digits of the handle are
   * gone, together with any further digits that directly follow them.
   */
  lemma ResourceIdErased(a: string, d: string, b: string)
    requires |d| > 0 && AllDigits(d)
    ensures Normalize(a + Marker + d + b) == Normalize(a) + Marker + Normalize(SkipDigits(b))
  {
    var rest := Marker + (d + b);
    AppendAssociative(a, Marker, d);
    AppendAssociative(a + Marker, d, b);
    AppendAssociative(a, Marker, d + b);
    assert a + Marker + d + b == a + rest;
    MarkerThenDigits(d + b);
    NormalizeAppend(a, rest);
    SkipDigitsAfterRun(d, b);
    NormalizeMatchStep(rest, SkipDigits(b));
    AppendAssociative(Normalize(a), Marker, Normalize(SkipDigits(b)));
  }

  /** The marker followed by a digit opens with a match and has no digit in its head. */
  lemma MarkerThenDigits(x: string)
    requires |x| > 0 && IsDigit(x[0])
    ensures NoDigitHead(Marker + x)
    ensures MatchAtStart(Marker + x)
    ensures (Marker + x)[|Marker|..] == x
  {
    var s := Marker + x;
    assert s[..|Marker|] == Marker;
    assert s[|Marker|] == x[0];
  }

  /** Two texts that differ only in the number of one resource handle normalise alike. */
  lemma ResourceIdIgnored(a: string, d1: string, d2: string, b: string)
    requires |d1| > 0 && AllDigits(d1)
    requires |d2| > 0 && AllDigits(d2)
    ensures Normalize(a + Marker + d1 + b) == Normalize(a + Marker + d2 + b)
  {
    ResourceIdErased(a, d1, b);
    ResourceIdErased(a, d2, b);
  }
}

=== FILE: strings.dfy ===
/** The PHP string built-ins the core relies on, written out over `seq<char>`. */
module Strings {
  import opened Base

  /** `needle` occurs in `hay` starting at index `i`. */
  predicate OccursAt(hay: string, needle: string, i: int)
  {
    0 <= i && i + |needle| <= |hay| && hay[i..i + |needle|] == needle
  }

  /** `needle` occurs somewhere in `hay` at an index of at least `from`. */
  ghost predicate OccursFrom(hay: string, needle: string, from: int)
  {
    exists i :: from <= i && OccursAt(hay, needle, i)
  }

  /** First occurrence of `needle` in `hay` at or after index `from`. */
  function IndexOfFrom(hay: string, needle: string, from: nat): (r: Option<nat>)
    ensures r.Some? ==> from <= r.value && OccursAt(hay, needle, r.value)
    ensures r.Some? ==> forall j :: from <= j < r.value ==> !OccursAt(hay, needle, j)
    ensures r.None? ==> forall j :: from <= j ==> !OccursAt(hay, needle, j)
    decreases |hay| - from
  {
    if from + |needle| > |hay| then None
    else if hay[from..from + |needle|] == needle then Some(from)
    else IndexOfFrom(hay, needle, from + 1)
  }

  /** PHP `strpos($hay, $needle)`: the index of the first occurrence, or `false` (None). */
  function IndexOf(hay: string, needle: string): (r: Option<nat>)
    ensures r.Some? <==> OccursFrom(hay, needle, 0)
    ensures r.Some? ==> OccursAt(hay, needle, r.value)
    ensures r.Some? ==> forall j :: 0 <= j < r.value ==> !OccursAt(hay, needle, j)
  {
    IndexOfFrom(hay, needle, 0)
  }

  /** PHP `strtr($s, $from, $to)` for single characters: every character of `from` becomes `to`. */
  function Translate(s: string, from: set<char>, to: char): (r: string)
    ensures |r| == |s|
    ensures forall i :: 0 <= i < |s| ==> r[i] == (if s[i] in from then to else s[i])
  {
    if |s| == 0 then []
    else [if s[0] in from then to else s[0]] + Translate(s[1..], from, to)
  }

  /** The characters PHP `trim` removes by default: " \t\n\r\0\x0B". */
  predicate IsTrimChar(c: char)
  {
    c == ' ' || c == '\t' || c == '\n' || c == '\r' || c == '\0' || c == '\U{0B}'
  }

  /** PHP `ltrim`: drops the leading run of trim characters. */
  function TrimStart(s: string): (r: string)
    ensures |r| <= |s| && r == s[|s| - |r|..]
    ensures forall k :: 0 <= k < |s| - |r| ==> IsTrimChar(s[k])
    ensures |r| == 0 || !IsTrimChar(r[0])
  {
    if |s| > 0 && IsTrimChar(s[0]) then TrimStart(s[1..]) else s
  }

  /** PHP `rtrim`: drops the trailing run of trim characters. */
  function TrimEnd(s: string): (r: string)
    ensures |r| <= |s| && r == s[..|r|]
    ensures forall k :: |r| <= k < |s| ==> IsTrimChar(s[k])
    ensures |r| == 0 || !IsTrimChar(r[|r| - 1])
  {
    if |s| > 0 && IsTrimChar(s[|s| - 1]) then TrimEnd(s[..|s| - 1]) else s
  }

  /** `r` is `s` with only trim characters cut off before and after it. */
  ghost predicate TrimmedFrom(s: string, r: string)
  {
    exists i ::
      && OccursAt(s, r, i)
      && (forall k :: 0 <= k < i ==> IsTrimChar(s[k]))
      && (forall k :: i + |r| <= k < |s| ==> IsTrimChar(s[k]))
  }

  /** PHP `trim`: the longest middle part of `s` with no trim character at either end. */
  function Trim(s: string): (r: string)
    ensures TrimmedFrom(s, r)
    ensures |r| == 0 || (!IsTrimChar(r[0]) && !IsTrimChar(r[|r| - 1]))
  {
    TrimBothEnds(s);
    TrimEnd(TrimStart(s))
  }

  lemma TrimBothEnds(s: string)
    ensures TrimmedFrom(s, TrimEnd(TrimStart(s)))
  {
    var left := TrimStart(s);
    var r := TrimEnd(left);
    var i := |s| - |left|;
    assert OccursAt(s, r, i) by {
      assert left == s[i..];
      assert r == left[..|r|];
      assert s[i..][..|r|] == s[i..i + |r|];
    }
    forall k | i + |r| <= k < |s|
      ensures IsTrimChar(s[k])
    {
      assert s[k] == left[k - i];
    }
    TrimmedAt(s, r, i);
  }

  /** The witness of `TrimmedFrom`. */
  lemma TrimmedAt(s: string, r: string, i: int)
    requires OccursAt(s, r, i)
    requires forall k :: 0 <= k < i ==> IsTrimChar(s[k])
    requires forall k :: i + |r| <= k < |s| ==> IsTrimChar(s[k])
    ensures TrimmedFrom(s, r)
  {
  }

  /** Neither end of `s` is a trim character. */
  predicate Untrimmed(s: string)
  {
    |s| > 0 && !IsTrimChar(s[0]) && !IsTrimChar(s[|s| - 1])
  }

  /** Trimming a string that has no trim character at either end changes nothing. */
  lemma TrimOfTrimmed(s: string)
    requires Untrimmed(s)
    ensures Trim(s) == s
  {
    assert TrimStart(s) == s;
    assert TrimEnd(s) == s;
  }

  lemma DigitIsNotTrimChar(c: char)
    requires IsDigit(c)
    ensures !IsTrimChar(c)
  {
  }

  /** Trimming keeps the last character when it is not a trim character. */
  lemma TrimKeepsLastChar(s: string)
    requires |s| > 0 && !IsTrimChar(s[|s| - 1])
    ensures |Trim(s)| > 0 && Trim(s)[|Trim(s)| - 1] == s[|s| - 1]
  {
    var left := TrimStart(s);
    assert |left| > 0;
    assert left[|left| - 1] == s[|s| - 1];
    assert TrimEnd(left) == left;
  }

  /** Trimming a string that ends with a digit keeps that digit and leaves no trim character in front. */
  lemma TrimDigitEnded(s: string)
    requires EndsWithDigit(s)
    ensures EndsWithDigit(Trim(s)) && !IsTrimChar(Trim(s)[0])
  {
    DigitIsNotTrimChar(s[|s| - 1]);
    TrimKeepsLastChar(s);
  }

  /** PHP `implode($sep, $parts)`. */
  function Join(parts: seq<string>, sep: string): (r: string)
    ensures |parts| == 0 ==> r == []
    ensures |parts| > 0 ==> |r| >= |parts[0]| && r[..|parts[0]|] == parts[0]
    ensures |parts| > 0 ==> |r| >= |parts[|parts| - 1]| && r[|r| - |parts[|parts| - 1]|..] == parts[|parts| - 1]
  {
    if |parts| == 0 then []
    else if |parts| == 1 then parts[0]
    else parts[0] + sep + Join(parts[1..], sep)
  }

  /** Joining parts whose outer ends are not trim characters leaves nothing for `trim` to do. */
  lemma JoinUntrimmed(parts: seq<string>, sep: string)
    requires |parts| > 0 && |parts[0]| > 0 && !IsTrimChar(parts[0][0])
    requires EndsWithDigit(parts[|parts| - 1])
    ensures Trim(Join(parts, sep)) == Join(parts, sep)
  {
    var r := Join(parts, sep);
    var last := parts[|parts| - 1];
    JoinStartsWithFirst(parts, sep);
    JoinEndsWithLast(parts, sep);
    DigitIsNotTrimChar(last[|last| - 1]);
    assert Untrimmed(r);
    TrimOfTrimmed(r);
  }

  /** A join opens with the first character of its first part. */
  lemma JoinStartsWithFirst(parts: seq<string>, sep: string)
    requires |parts| > 0 && |parts[0]| > 0
    ensures var r := Join(parts, sep); |r| > 0 && r[0] == parts[0][0]
  {
    var r := Join(parts, sep);
    assert r[..|parts[0]|] == parts[0];
  }

  /** A join ends with the last character of its last part. */
  lemma JoinEndsWithLast(parts: seq<string>, sep: string)
    requires |parts| > 0 && |parts[|parts| - 1]| > 0
    ensures var r := Join(parts, sep); var last := parts[|parts| - 1];
      |r| > 0 && r[|r| - 1] == last[|last| - 1]
  {
    var r := Join(parts, sep);
    var last := parts[|parts| - 1];
    assert r[|r| - |last|..] == last;
  }

  /** Joining two or more parts: the first, the separator, then the rest joined. */
  lemma JoinCons(parts: seq<string>, sep: string)
    requires |parts| >= 2
    ensures Join(parts, sep) == parts[0] + sep + Join(parts[1..], sep)
  {
  }

  /**
   * Joining two non-empty lists is joining each and putting one separator between
   * them: every pair of neighbouring parts is separated by exactly one `sep`.
   */
  lemma {:induction false} JoinAppend(a: seq<string>, b: seq<string>, sep: string)
    requires |a| > 0 && |b| > 0
    ensures Join(a + b, sep) == Join(a, sep) + sep + Join(b, sep)
    decreases |a|
  {
    var rb := Join(b, sep);
    if |a| == 1 {
      assert (a + b)[0] == a[0];
      assert (a + b)[1..] == b;
      JoinCons(a + b, sep);
    } else {
      var p := a[0] + sep;
      var ra := Join(a[1..], sep);
      assert Join(a + b, sep) == p + Join(a[1..] + b, sep) by {
        assert (a + b)[0] == a[0];
        assert (a + b)[1..] == a[1..] + b;
        JoinCons(a + b, sep);
      }
      JoinAppend(a[1..], b, sep);
      assert Join(a, sep) == p + ra by {
        JoinCons(a, sep);
      }
      AppendAssociative(p, ra + sep, rb);
      AppendAssociative(p, ra, sep);
    }
  }

  lemma AppendAssociative(x: string, y: string, z: string)
    ensures x + (y + z) == (x + y) + z
  {
  }

  predicate IsDigit(c: char)
  {
    '0' <= c <= '9'
  }

  predicate EndsWithDigit(s: string)
  {
    |s| > 0 && IsDigit(s[|s| - 1])
  }

  predicate AllDigits(s: string)
  {
    forall i :: 0 <= i < |s| ==> IsDigit(s[i])
  }

  /** The number a string of decimal digits spells, most significant digit first. */
  function DigitsValue(s: string): nat
    requires AllDigits(s)
  {
    if |s| == 0 then 0
    else DigitsValue(s[..|s| - 1]) * 10 + (s[|s| - 1] as int - '0' as int)
  }

  /** Decimal digits of a natural number, most significant first, with no leading zero. */
  function NatToString(n: nat): (r: string)
    ensures |r| > 0 && AllDigits(r)
    ensures DigitsValue(r) == n
    ensures r[0] == '0' ==> n == 0
    ensures n < 10 <==> |r| == 1
  {
    var d := [(('0' as int) + n % 10) as char];
    if n < 10 then d
    else
      var high := NatToString(n / 10);
      var r := high + d;
      assert r[..|r| - 1] == high;
      r
  }

  /**
   * PHP's integer-to-string conversion: the decimal digits of the magnitude, after
   * a `-` for a negative number.
   */
  function IntToString(n: int): (r: string)
    ensures |r| > 0 && IsDigit(r[|r| - 1])
    ensures n >= 0 <==> AllDigits(r)
    ensures n >= 0 ==> DigitsValue(r) == n && (r[0] == '0' ==> n == 0)
    ensures r[0] == '0' ==> r == "0"
    ensures n < 0 ==> r[0] == '-' && AllDigits(r[1..]) && DigitsValue(r[1..]) == -n && r[1] != '0'
  {
    if n >= 0 then NatToString(n)
    else
      var r := "-" + NatToString(-n);
      assert !IsDigit(r[0]);
      assert r[1..] == NatToString(-n);
      r
  }
}
